=== FILE: README.md ===
# cowsay-mcp in Dafny

A model of the core of **cowsay-mcp**. That repository has two parts:

- an MCP server that exposes one tool, `cowsay-mcp`, which draws ASCII-art cow speech bubbles;
- a demo in which a local language model is asked to call a tool by answering with a JSON object.

The model covers the pure logic of both parts:

- **The demo's tool-call validator** (`validate_tool_call`, module `ToolFlow`). It skips leading whitespace and decodes one JSON value. It warns about text after that value, then checks the value's shape in a fixed order: an object, whose `tool` is `"csay"`, whose `args` is an object, and whose `args.text` is a non-blank string. Each `sys.exit(1)` becomes a `ValidationError`. The shape errors carry the value the source prints; `InvalidJson` carries nothing. The trailing-text warning is a flag of the result.
- **The JSON values the code looks into** (module `JsonValue`). `dict.get` on a decoded object sees the last of duplicate keys, as `json.loads` builds it. Python's type names are used in error messages.
- **The chat transcript** (`Message` and `render_messages`, module `Llm`). Each message becomes the line `ROLE: content` followed by a newline. The prompt ends with the cue `ASSISTANT: `.
- **The fixed two-turn conversation of the demo** (`demo/prompts.py`, module `Prompts`). It consists of the system prompt that describes `csay`, the first request, and the follow-up that carries the tool call and the tool's output.
- **The tool-aware prompt builder** (`demo/prompting.py`, module `Prompting`). It covers:
  - the `THEMES` list;
  - the tag summary (sorted, joined by ", ");
  - the parameter summary (`name (type) - description` parts joined by "; ");
  - the example call `{"tool": name, "args": {each property: "..."}}`;
  - the system prompt after `textwrap.dedent(...).strip()`;
  - the first-turn messages.
- **The server's piped entry point** (`main` in `src/cowsay_mcp/main.py`, module `ServerMain`). It is a pure function from "is standard input a terminal" and the input text to the outcome: run the server, `{"result": ...}`, or `{"error": ...}` with exit status 1. The function also records the argument the cow renderer was called with.

Supporting modules:

- `Wrappers` provides `Option` and `Result`.
- `Text` models Python's `str.isspace`, `lstrip`, `rstrip`, `strip`, `join`, `split` and ASCII `upper`, and infix containment (`in`).
- `StringOrder` models Python's ordering of strings and `sorted`, as an insertion sort proved to give the unique sorted permutation.

The external calls are parameters of the model:

- `json.JSONDecoder.raw_decode` is a `Decoder`: a function that returns a value and the end index, never past the text. Which texts it accepts is left open.
- `json.loads` is the `loads` parameter.
- `json.dumps` is the `dumps` parameter.
- `str()` of a decoded value is the `show` parameter.
- The cow renderer `run_cowsay` is the `render` parameter.

The lemmas that replay the repository's unit tests take as a hypothesis that the decoder reads the test's reply as standard JSON would.

The demo's validator is modelled as the code has it. It works on the text after leading whitespace, and the value must start there. It does not search for the first `{`, and it does not retry after a doubled `{{`. It returns the `text` argument unstripped: `" hello "` comes back with its spaces, as the unit test expects. The errors carry the values the code prints.

## Model

| member | source | states |
|---|---|---|
| Text.LStrip | demo/tool_flow.py:34 | the result is a suffix of the input, what was removed is all whitespace, and the result does not start with whitespace |
| Text.StripEmptyIffBlank | demo/tool_flow.py:66 | `s.strip()` is empty exactly when every character of `s` is whitespace |
| Text.Join | demo/prompting.py:24 | the first piece starts the joined text, and with more than one piece the separator follows it |
| Text.JoinLength | demo/prompting.py:46 | joining `n` pieces gives their total length plus `n - 1` separators |
| Text.JoinContainsEach | demo/prompting.py:46 | every piece occurs in the joined text |
| Text.SplitJoin | demo/prompting.py:46 | splitting a joined text at the separator gives back the pieces, in order and in number, when no piece contains the separator's first character |
| Text.UpperEach | demo/llm.py:58 | `upper()` keeps the length and upper-cases each ASCII letter, leaving other characters alone |
| JsonValue.GetUnique | demo/tool_flow.py:55 | a key that occurs once in a decoded object is looked up to its own value, as with an ordinary dict |
| JsonValue.Get | demo/tool_flow.py:55 | `get` finds nothing exactly when the key is absent; otherwise it returns the value of an occurrence of the key with no later occurrence (the last duplicate wins) |
| JsonValue.TypeName | src/cowsay_mcp/main.py:17-22 | the Python type name of a decoded value is one of the seven JSON-backed types, and it is `dict` exactly for objects |
| ToolFlow.LeadingOffset | demo/tool_flow.py:34-35 | the offset plus the length of the stripped text is the length of the raw text, the raw text from the offset on is the stripped text, and the skipped prefix is whitespace |
| ToolFlow.CheckShape | demo/tool_flow.py:51-73 | the value is accepted exactly when all four checks pass; each error happens exactly when its check is the first to fail (not an object, tool is not "csay", args is not an object, text is missing, not a string or blank) and carries the value the source prints (the candidate, or the looked-up `tool`, `args` or `text`); on success the tool is "csay" and the text is exactly `args.text`, non-blank |
| ToolFlow.ValidateToolCall | demo/tool_flow.py:31-49 | a reply the decoder rejects with a JSON decoding error is `InvalidJson` with no warning; otherwise the verdict is the shape check of the decoded value, and the warning is raised exactly when the text after the value is not blank |
| ToolFlow.EnvelopeVerdict | demo/tool_flow.py:55-73 | on `{"tool": t, "args": {"text": s}}`: another tool is refused with `t`, a blank `s` is refused with `s`, and otherwise `("csay", s)` comes back, so validation inverts building the envelope |
| ToolFlow.ValidateWholeReply | demo/tool_flow.py:34-49 | a reply that is exactly one JSON value is judged on that value, with no warning |
| ToolFlow.ValidateReplyWithTail | demo/tool_flow.py:47-49 | a JSON value followed by any tail is judged on the value, and the warning is raised exactly when the tail is not blank |
| ToolFlow.AcceptedHasEnvelopeFields | demo/tool_flow.py:55-73 | every accepted value is an object whose `tool` is the returned tool and whose `args.text` is the returned text |
| ToolFlow.WrongToolIgnoresArgs | demo/tool_flow.py:55-58 | a tool other than "csay" is refused whatever `args` holds, before `args` is read |
| ToolFlow.TrailingTextIrrelevant | demo/tool_flow.py:47-73 | two replies that decode to the same value get the same verdict, whatever follows the value |
| ToolFlowScenarios.AcceptedVerbatim | tests/unit/test_demo_validation.py:8-11 | a reply that is exactly a `csay` call with any non-blank text (such as `" hello "`) is accepted with that text, spaces included, and no warning |
| ToolFlowScenarios.TrailingTextWarns | tests/unit/test_demo_validation.py:14-20 | a valid call followed by any non-blank notes is accepted with its text, and the warning is raised |
| ToolFlowScenarios.OtherToolRefused | tests/unit/test_demo_validation.py:23-25 | a call of any tool other than `csay` (such as "other") is refused as an unsupported tool, naming it, whatever the text |
| ToolFlowScenarios.BlankTextRefused | tests/unit/test_demo_validation.py:28-30 | a call of `csay` with any blank text (such as three spaces) is refused, carrying that text |
| Llm.LabelIsUpper | demo/llm.py:58 | the line tag is the role name upper-cased, of the same length |
| Llm.LabelsDistinct | demo/llm.py:22-24 | two messages get the same tag exactly when they have the same role |
| Llm.RenderMessages | demo/llm.py:54-61 | the loop's output is the transcript of all messages, in order, followed by the `ASSISTANT: ` cue |
| Llm.TranscriptSnoc | demo/llm.py:57-59 | appending a message appends its line `ROLE: content\n` to the transcript |
| Llm.TranscriptAppend | demo/llm.py:56-61 | the transcript of a concatenation is the concatenation of the transcripts |
| Llm.RenderEndsWithCue | demo/llm.py:60-61 | every prompt ends with the cue, and no messages give the cue alone |
| Llm.RenderSnoc | demo/llm.py:57-60 | rendering one more message keeps the earlier prompt up to its cue, then adds the new message's line and the cue |
| Llm.RenderExtends | demo/llm.py:56-61 | the transcript of an earlier part of a conversation is a prefix of the prompt of the whole conversation |
| Llm.RenderLength | demo/llm.py:56-61 | the prompt's length is the sum of role, separator, content and newline lengths, plus 11 for the cue |
| StringOrder.LeTransitive | demo/prompting.py:24 | Python's string order is transitive (with `LeTotal` and `LeAntisymmetric`, it is a total order) |
| StringOrder.Sort | demo/prompting.py:24 | `sorted` gives an ascending permutation of its input |
| StringOrder.SortedUnique | demo/prompting.py:24 | two ascending lists with the same elements are equal, so `sorted`'s result is determined by the multiset of its input |
| Prompting.ThemesDistinct | demo/prompting.py:9 | `THEMES` holds five distinct, non-empty themes |
| Prompting.SummariseTags | demo/prompting.py:20-24 | no tags or an empty list gives "none"; otherwise the summary is the ascending arrangement of the tags joined by ", " |
| Prompting.SummariseTagsIgnoresOrder | demo/prompting.py:20-24 | listing the tags in another order gives the same summary |
| Prompting.SummariseTagsSplits | demo/prompting.py:20-24 | splitting the summary at ", " gives back every tag, each as often as listed, in ascending order, when no tag contains a comma |
| Prompting.DescribeParameter | demo/prompting.py:38-45 | a part starts with `name (type)`, with "any" for a missing type; it is 3 characters longer than the name and type when there is no non-empty description, and otherwise continues with " - " and the description |
| Prompting.ParseDescribe | demo/prompting.py:38-45 | the name, the type and the description can be read back from a part, when the name has no "(" and the type no ")" |
| Prompting.SummariseParameters | demo/prompting.py:27-46 | no schema or no properties gives "No arguments required"; every property's part appears in the summary; with no ";" in the metadata, splitting at "; " gives exactly one part per property, in schema order |
| Prompting.ExampleArgs | demo/prompting.py:54-56 | the example args have one entry per property, in order, each holding "..." |
| Prompting.ExampleArgsLookup | demo/prompting.py:54-56 | looking up a key in the example args gives "..." exactly when the key is a property name, and nothing otherwise |
| Prompting.ExampleCall | demo/prompting.py:57-59 | the example call has exactly the keys `tool` and `args`, in that order; `tool` is the tool's name and `args` are the example args |
| Prompting.LayoutHasLines | demo/prompting.py:61-74 | whatever the tool heading, example and summaries filled into the prompt's layout, each appears in it, as does the JSON-only instruction |
| Prompting.BuildSystemPrompt | demo/prompting.py:49-74 | the prompt contains the tool's name and description line, the dumped example call, the tag summary, the parameter summary and the JSON-only instruction |
| Prompting.PoemRequest | demo/prompting.py:81-84 | the user's request contains both the theme and the tool name |
| Prompting.BuildInitialMessages | demo/prompting.py:77-88 | exactly two messages: the system prompt for the tool, then a user message mentioning the theme and the tool name |
| Prompts.BuildSystemPrompt | demo/prompts.py:10-18 | splitting the prompt at its newlines gives back exactly its five lines, in order |
| Prompts.AvailableLine | demo/prompts.py:14 | the tool line starts by naming the tool |
| Prompts.SystemPromptHasLine | demo/prompts.py:10-18 | each of the five lines appears in the system prompt |
| Prompts.SystemPromptNamesTool | demo/prompts.py:10-18 | the system prompt contains the line naming `csay`, the tool the validator accepts, and the example call |
| Prompts.ExampleIsAccepted | demo/prompts.py:17 | the example call text the prompt shows, read by a decoder as the envelope it spells out, is accepted by the validator as `("csay", "hello")` with no warning |
| Prompts.ToolFeedback | demo/prompts.py:38-42 | the user's last turn starts with "tool_result:" and a newline, then the tool's output verbatim, and what follows it is exactly two newlines and the closing instruction |
| Prompts.FirstTurnMessages | demo/prompts.py:21-26 | the first turn is the system prompt, then the fixed user request |
| Prompts.FinalTurnMessages | demo/prompts.py:29-44 | the second turn keeps the first turn's system message, echoes the tool call verbatim as the assistant's turn, and hands the tool result back as the user's turn |
| Prompts.FirstTurnPrompt | demo/prompts.py:21-26 | the first-turn prompt is the SYSTEM line, the USER line and the cue |
| Prompts.FinalTurnPrompt | demo/prompts.py:29-44 | the second-turn prompt is the SYSTEM line, the ASSISTANT line holding the tool call, the USER line holding the tool result, and the cue |
| ServerMain.Dispatch | src/cowsay_mcp/main.py:7-35 | a terminal runs the server; blank input is "No input data"; a parse failure reports the parser's message; a decoded value that is not an object, or a non-object `args` under `cowsay-mcp`, fails on `.get` with its type name; another or a missing tool is "Unknown tool" with `str` of the tool; the renderer is called exactly when the input decodes to an object naming `cowsay-mcp` whose args (default `{}`) is an object, with `args.text` (default ""); the outcome is then the renderer's result, or its failure |
| ServerMain.ToolNameText | src/cowsay_mcp/main.py:26 | the tool is shown as "None" when missing or null, as itself when a string, and as `str` of the value otherwise |
| ServerMain.ErrorText | src/cowsay_mcp/main.py:13-30 | the error message is "No input data", the parser's or renderer's own message, "Unknown tool: " followed by the tool, or the quoted type name followed by " object has no attribute 'get'" |
| ServerMain.UnknownToolNamesDiffer | src/cowsay_mcp/main.py:26 | two different tool names never give the same "Unknown tool" message |
| ServerMain.TtyIgnoresInput | src/cowsay_mcp/main.py:9-35 | with a terminal on standard input, the input and the collaborators do not matter: the server runs |
| ServerMain.OtherToolRefused | src/cowsay_mcp/main.py:20-28 | a request naming another tool is refused with "Unknown tool: <name>", and nothing is rendered |
| ServerMain.MissingToolRefused | src/cowsay_mcp/main.py:17-28 | an object without `tool` is refused with "Unknown tool: None", and nothing is rendered |
| ServerMain.MissingArgsRendersEmpty | src/cowsay_mcp/main.py:18-22 | `{"tool": "cowsay-mcp"}` without args renders the empty text |
| ServerMain.ServerCallRenders | src/cowsay_mcp/main.py:20-24 | `{"tool": "cowsay-mcp", "args": {"text": t}}` renders `t`, and the outcome is the renderer's result or its failure |

## Left out

- The language-model backend (`load_model`, `chat_once`, `_ensure_mlx_functions`): it loads and runs an external model. Only the prompt rendering it feeds the model is modelled.
- `request_tool_call`, `obtain_final_answer` and `run_demo`: they only chain the model calls, the validator and the renderer. Their message builders and the validator are modelled.
- `run_cowsay`, the cowsay library and the FastMCP server: the renderer is the `render` parameter, which may fail, and "run the server" is the `RunServer` outcome.
- JSON decoding and encoding: `raw_decode`, `json.loads`, `json.dumps` and `str()` of values are parameters. Escaping in `EnvelopeText` holds only for tool names and texts that need no escaping.
- Printing, standard error and `sys.exit`: they become result values. The exact messages printed by the validator (using `repr`) are not modelled; the error carries the value printed.
- Prompting.BuildSystemPrompt: the line layout follows `textwrap.dedent(...).strip()` only when the interpolated name, description, summaries and dumped example contain no newline. A newline in them would change the common indentation.
- Schema properties are a sequence of name and spec pairs, which may repeat a name where a Python dict cannot; the prompt builders accept such schemas, which the source never receives.
- Prompting.SummariseParameters: splitting the summary back into parts is stated only when no name, type or description contains ";".
- Prompting.DescribeParameter: a `type` entry that is present but null prints as "None" in the source. The typed schema cannot express that and treats it as missing ("any").
- Prompting.SummariseTags: tags are a list; the set of tags of a registered tool is modelled as a list in any order, which `SummariseTagsIgnoresOrder` shows does not matter.
- `POEM_ANALYST_PROMPT`: a fixed Japanese text that no modelled operation uses.
- ToolFlow.ValidateToolCall: on a decoding failure the source prints the decoder's exception and the raw reply. `InvalidJson` carries neither, because the decoder parameter only reports that decoding failed.
- ToolFlow.ValidateToolCall: the decoder's `None` stands only for `json.JSONDecodeError`, the one exception the source catches. Other errors `raw_decode` can raise escape the validator uncaught, with a traceback. Examples are `RecursionError` on deeply nested input and `ValueError` on an integer literal over Python's digit limit. They are not modelled.
- Lone surrogates: a Python string can hold one (a JSON escape such as `\ud800` decodes to it), but a Dafny `char` is a Unicode scalar value, so such texts are not modelled.
- Text.UpperEach: only ASCII letters are upper-cased. The role names, the only strings upper-cased in the source, are ASCII.
- Floating-point JSON numbers are carried as their literal text, since no modelled operation inspects them.
- `demo/main.py`, and the tests for `parse_tool_call` and `fetch_primary_tool`: those functions are not part of this model.

=== FILE: json_value.dfy ===
/** The values Python's `json` module decodes to: `None`, `bool`, `int`,
    `float`, `str`, `list` and `dict`. An object keeps its members in text
    order; `Get` gives them `dict` semantics. */
module JsonValue {
  import opened Wrappers

  datatype Json =
    | JNull
    | JBool(b: bool)
    | JInt(i: int)
    | JFloat(literal: string)
    | JStr(s: string)
    | JArr(items: seq<Json>)
    | JObj(fields: seq<(string, Json)>)

  /** `d.get(key)` on the `dict` decoded from `fields`. The decoder builds the
      dict member by member, so a repeated key keeps its last value. */
  function Get(fields: seq<(string, Json)>, key: string): (r: Option<Json>)
    ensures r.None? <==> forall i :: 0 <= i < |fields| ==> fields[i].0 != key
    ensures r.Some? ==> exists i :: 0 <= i < |fields| && fields[i] == (key, r.value)
                                    && forall j :: i < j < |fields| ==> fields[j].0 != key
    decreases |fields|
  {
    if |fields| == 0 then None
    else if fields[|fields| - 1].0 == key then Some(fields[|fields| - 1].1)
    else Get(fields[..|fields| - 1], key)
  }

  /** The member names the demo and the server look up are distinct strings. */
  lemma KeysDiffer()
    ensures "tool" != "args" && "tool" != "text" && "args" != "text"
  {
    assert "tool"[0] != "args"[0] && "tool"[1] != "text"[1] && "args"[0] != "text"[0];
  }

  /** The member whose key is the only one of its kind is what `Get` finds. */
  lemma GetUnique(fields: seq<(string, Json)>, k: nat)
    requires k < |fields|
    requires forall j :: 0 <= j < |fields| && j != k ==> fields[j].0 != fields[k].0
    ensures Get(fields, fields[k].0) == Some(fields[k].1)
  {
  }

  /** The name Python reports for the type of a decoded value. */
  function TypeName(v: Json): (name: string)
    ensures name in {"NoneType", "bool", "int", "float", "str", "list", "dict"}
    ensures name == "dict" <==> v.JObj?
  {
    match v
    case JNull => "NoneType"
    case JBool(_) => "bool"
    case JInt(_) => "int"
    case JFloat(_) => "float"
    case JStr(_) => "str"
    case JArr(_) => "list"
    case JObj(_) => "dict"
  }
}

=== FILE: llm.dfy ===
/** The chat transcript the demo hands to the local model: role-tagged
    messages (`Message`) rendered into one prompt text (`render_messages`). */
module Llm {
  import opened Text

  /** `Literal["system", "user", "assistant"]`. */
  datatype Role = System | User | Assistant

  datatype Message = Message(role: Role, content: string)

  /** The role as the message records spell it. */
  function RoleName(r: Role): string {
    match r
    case System => "system"
    case User => "user"
    case Assistant => "assistant"
  }

  /** `role.upper()`: the tag a rendered line starts with. */
  function Label(r: Role): string {
    match r
    case System => "SYSTEM"
    case User => "USER"
    case Assistant => "ASSISTANT"
  }

  /** The tag is the role's name upper-cased, so it has the name's length. */
  lemma LabelIsUpper(r: Role)
    ensures Label(r) == Upper(RoleName(r))
    ensures |Label(r)| == |RoleName(r)|
  {
    UpperEach(RoleName(r));
  }

  /** Distinct roles get distinct tags, so a rendered line names its role. */
  lemma LabelsDistinct(r: Role, q: Role)
    ensures Label(r) == Label(q) <==> r == q
  {
    if r != q {
      assert Label(r)[0] != Label(q)[0] || |Label(r)| != |Label(q)|;
    }
  }

  /** The text that closes every prompt and steers the model to answer. */
  const Cue: string := "ASSISTANT: "

  /** One rendered message: `f"{role}: {content}\n"`. */
  function Line(m: Message): string {
    Label(m.role) + ": " + m.content + "\n"
  }

  /** The rendered messages, in order. */
  function Transcript(ms: seq<Message>): string
    decreases |ms|
  {
    if |ms| == 0 then "" else Line(ms[0]) + Transcript(ms[1..])
  }

  /** The prompt `render_messages` produces. */
  function Render(ms: seq<Message>): string {
    Transcript(ms) + Cue
  }

  /** Appending a message appends its line. */
  lemma {:induction false} TranscriptSnoc(ms: seq<Message>, m: Message)
    ensures Transcript(ms + [m]) == Transcript(ms) + Line(m)
    decreases |ms|
  {
    if |ms| == 0 {
      assert ms + [m] == [m];
    } else {
      assert (ms + [m])[1..] == ms[1..] + [m];
      TranscriptSnoc(ms[1..], m);
    }
  }

  /** A conversation of three messages renders as their three lines and the cue. */
  lemma RenderThree(a: Message, b: Message, c: Message)
    ensures Render([a, b, c]) == Line(a) + Line(b) + Line(c) + Cue
  {
    assert [a, b, c][1..] == [b, c] && [b, c][1..] == [c] && [c][1..] == [];
    assert Transcript([c]) == Line(c);
    assert Transcript([b, c]) == Line(b) + Line(c);
    assert Transcript([a, b, c]) == Line(a) + (Line(b) + Line(c));
  }

  /** A conversation of two messages renders as their two lines and the cue. */
  lemma RenderTwo(a: Message, b: Message)
    ensures Render([a, b]) == Line(a) + Line(b) + Cue
  {
    assert [a, b][1..] == [b] && [b][1..] == [];
    assert Transcript([b]) == Line(b);
    assert Transcript([a, b]) == Line(a) + Line(b);
  }

  /** Rendering a concatenation concatenates the transcripts. */
  lemma {:induction false} TranscriptAppend(a: seq<Message>, b: seq<Message>)
    ensures Transcript(a + b) == Transcript(a) + Transcript(b)
    decreases |a|
  {
    if |a| == 0 {
      assert a + b == b;
    } else {
      assert (a + b)[1..] == a[1..] + b;
      TranscriptAppend(a[1..], b);
    }
  }

  /** `render_messages(messages)`: the source's loop, appending one line per
      message and the cue at the end. */
  method RenderMessages(messages: seq<Message>) returns (prompt: string)
    ensures prompt == Render(messages)
  {
    var text := "";
    var i := 0;
    while i < |messages|
      invariant 0 <= i <= |messages|
      invariant text == Transcript(messages[..i])
    {
      TranscriptSnoc(messages[..i], messages[i]);
      assert messages[..i + 1] == messages[..i] + [messages[i]];
      text := text + Line(messages[i]);
      i := i + 1;
    }
    assert messages[..i] == messages;
    prompt := text + Cue;
  }

  /** Every prompt ends with the cue; no messages give the cue alone. */
  lemma RenderEndsWithCue(ms: seq<Message>)
    ensures |Render(ms)| >= |Cue|
    ensures Render(ms)[|Render(ms)| - |Cue|..] == Cue
    ensures ms == [] ==> Render(ms) == Cue
  {
  }

  /** Rendering `ms + [m]` keeps the rendering of `ms` up to its cue, then adds
      the new line and the cue: the fold keeps messages in order. */
  lemma RenderSnoc(ms: seq<Message>, m: Message)
    ensures Render(ms + [m]) == Render(ms)[..|Render(ms)| - |Cue|] + Line(m) + Cue
  {
    TranscriptSnoc(ms, m);
    var t := Transcript(ms);
    assert (t + Cue)[..|t|] == t;
  }

  /** The rendering of a prefix of the conversation is a prefix of the
      rendering of the whole conversation. */
  lemma RenderExtends(a: seq<Message>, b: seq<Message>)
    ensures Transcript(a) <= Render(a + b)
  {
    TranscriptAppend(a, b);
  }

  /** The size a message adds to the prompt: the role, ": ", the content
      and the newline. */
  function Size(ms: seq<Message>): nat
    decreases |ms|
  {
    if |ms| == 0 then 0 else |RoleName(ms[0].role)| + 2 + |ms[0].content| + 1 + Size(ms[1..])
  }

  /** The prompt's length is the sum of the message sizes plus the cue's 11
      characters. */
  lemma {:induction false} RenderLength(ms: seq<Message>)
    ensures |Render(ms)| == Size(ms) + 11
  {
    TranscriptLength(ms);
  }

  lemma {:induction false} TranscriptLength(ms: seq<Message>)
    ensures |Transcript(ms)| == Size(ms)
    decreases |ms|
  {
    if |ms| > 0 {
      TranscriptLength(ms[1..]);
    }
  }
}

=== FILE: prompting.dfy ===
/** The tool-aware prompt builder of the demo: summaries of a tool's tags and
    parameter schema, the example call it advertises, the system prompt that
    carries them, and the first-turn conversation. The tool's metadata is a
    typed record instead of duck-typed attribute access. */
module Prompting {
  import opened Wrappers
  import opened Text
  import opened StringOrder
  import opened JsonValue
  import opened Llm

  /** The poem themes the demo draws from. */
  const Themes: seq<string> := ["nature", "technology", "emotions", "adventure", "creativity"]

  /** The five themes are distinct, and none is empty. */
  lemma ThemesDistinct()
    ensures |Themes| == 5
    ensures forall i, j :: 0 <= i < j < |Themes| ==> Themes[i] != Themes[j]
    ensures forall i :: 0 <= i < |Themes| ==> |Themes[i]| > 0
  {
    forall i, j | 0 <= i < j < |Themes| ensures Themes[i] != Themes[j] {
      assert Themes[i][0] != Themes[j][0];
    }
  }

  /** One property of a parameter schema: its `type` and `description`
      entries, either of which may be missing. */
  datatype ParamSpec = ParamSpec(typeHint: Option<string>, description: Option<string>)

  /** A parameter schema; `properties` keeps the schema's key order, and a
      property whose spec is null or empty is `None`. */
  datatype Schema = Schema(properties: Option<seq<(string, Option<ParamSpec>)>>)

  /** The metadata the tool registry reports for a tool. */
  datatype ToolInfo = ToolInfo(
    name: string,
    description: string,
    tags: Option<seq<string>>,
    parameters: Option<Schema>)

  const NoTags: string := "none"
  const NoArguments: string := "No arguments required"

  /** `summarise_tags(tool)`: `"none"` without tags, otherwise the tags in
      ascending order joined by ", ". */
  function SummariseTags(tool: ToolInfo): (summary: string)
    ensures tool.tags.None? || tool.tags.value == [] ==> summary == NoTags
    ensures tool.tags.Some? && tool.tags.value != [] ==>
              forall ys :: Sorted(ys) && multiset(ys) == multiset(tool.tags.value) ==> summary == Join(ys, ", ")
  {
    if tool.tags.None? || tool.tags.value == [] then NoTags
    else
      var sorted := Sort(tool.tags.value);
      assert forall ys :: Sorted(ys) && multiset(ys) == multiset(tool.tags.value) ==> ys == sorted by {
        forall ys | Sorted(ys) && multiset(ys) == multiset(tool.tags.value) ensures ys == sorted {
          SortedUnique(ys, sorted);
        }
      }
      Join(sorted, ", ")
  }

  /** Listing tags in any order gives the same summary. */
  lemma SummariseTagsIgnoresOrder(tool: ToolInfo, tags: seq<string>)
    requires tool.tags.Some? && multiset(tags) == multiset(tool.tags.value)
    ensures SummariseTags(tool) == SummariseTags(tool.(tags := Some(tags)))
  {
    SortIgnoresOrder(tool.tags.value, tags);
  }

  /** Splitting a summary at ", " gives back every tag, each as often as it
      is listed, in ascending order, when no tag contains a comma. */
  lemma SummariseTagsSplits(tool: ToolInfo)
    requires tool.tags.Some? && tool.tags.value != []
    requires forall i :: 0 <= i < |tool.tags.value| ==> ',' !in tool.tags.value[i]
    ensures var parts := Split(SummariseTags(tool), ", ");
            Sorted(parts) && multiset(parts) == multiset(tool.tags.value)
  {
    var tags := tool.tags.value;
    var sorted := Sort(tags);
    assert |sorted| == |multiset(sorted)| == |tags| > 0;
    forall i | 0 <= i < |sorted| ensures ',' !in sorted[i] {
      assert sorted[i] in multiset(tags);
    }
    SplitJoin(sorted, ", ");
  }

  /** `(schema or {}).get("properties", {}) or {}`. */
  function Properties(schema: Option<Schema>): seq<(string, Option<ParamSpec>)> {
    if schema.Some? && schema.value.properties.Some? then schema.value.properties.value else []
  }

  /** `details.get("type", "any")`. */
  function TypeLabel(spec: Option<ParamSpec>): string {
    if spec.Some? && spec.value.typeHint.Some? then spec.value.typeHint.value else "any"
  }

  /** The description when it is present and not empty (Python's truth test). */
  function DescriptionOf(spec: Option<ParamSpec>): Option<string> {
    if spec.Some? && spec.value.description.Some? && spec.value.description.value != ""
    then spec.value.description
    else None
  }

  /** One part of the summary: `name (type)`, then ` - description` when there
      is one. */
  function DescribeParameter(name: string, spec: Option<ParamSpec>): (part: string)
    ensures name + " (" + TypeLabel(spec) + ")" <= part
    ensures |part| == |name| + |TypeLabel(spec)| + 3
                      + (if DescriptionOf(spec).Some? then 3 + |DescriptionOf(spec).value| else 0)
    ensures DescriptionOf(spec).Some? ==>
              part[|name| + |TypeLabel(spec)| + 3..] == " - " + DescriptionOf(spec).value
  {
    var head := name + " (" + TypeLabel(spec) + ")";
    match DescriptionOf(spec)
    case Some(d) => head + " - " + d
    case None => head
  }

  /** The index of the first `c` in `s`, or `|s|` when there is none. */
  function IndexOf(s: string, c: char): (k: nat)
    ensures k <= |s| && c !in s[..k]
    ensures k < |s| ==> s[k] == c
  {
    if |s| == 0 then 0
    else if s[0] == c then 0
    else
      var k := 1 + IndexOf(s[1..], c);
      assert s[..k] == [s[0]] + s[1..][..k - 1];
      k
  }

  /** Reads a summary part back: the name before " (", the type up to the
      first ")", and what follows " - ", if anything. */
  function ParsePart(part: string): (string, string, Option<string>) {
    var open := IndexOf(part, '(');
    var name := if open >= 1 then part[..open - 1] else "";
    var rest := if open < |part| then part[open + 1..] else "";
    var close := IndexOf(rest, ')');
    var typeHint := rest[..close];
    var tail := if close < |rest| then rest[close + 1..] else "";
    (name, typeHint, if |tail| >= 3 then Some(tail[3..]) else None)
  }

  lemma FirstIndex(s: string, c: char, k: nat)
    requires k < |s| && s[k] == c && c !in s[..k]
    ensures IndexOf(s, c) == k
  {
  }

  /** Reading back `name (t)` followed by any tail. */
  lemma ParseHead(name: string, t: string, tail: string)
    requires '(' !in name && ')' !in t
    ensures ParsePart(name + " (" + t + ")" + tail) == (name, t, if |tail| >= 3 then Some(tail[3..]) else None)
  {
    var part := name + " (" + t + ")" + tail;
    assert part[..|name| + 1] == name + " ";
    assert part[|name| + 1] == '(';
    FirstIndex(part, '(', |name| + 1);
    assert part[..|name|] == name;
    var rest := part[|name| + 2..];
    assert rest == t + ")" + tail;
    assert rest[..|t|] == t;
    assert rest[|t|] == ')';
    FirstIndex(rest, ')', |t|);
    assert rest[|t| + 1..] == tail;
  }

  /** A summary part loses nothing: the name, the type (`any` when missing)
      and the description can be read back from it, provided the name has no
      "(" and the type no ")". */
  lemma ParseDescribe(name: string, spec: Option<ParamSpec>)
    requires '(' !in name && ')' !in TypeLabel(spec)
    ensures ParsePart(DescribeParameter(name, spec)) == (name, TypeLabel(spec), DescriptionOf(spec))
  {
    var t := TypeLabel(spec);
    match DescriptionOf(spec)
    case Some(d) =>
      ParseHead(name, t, " - " + d);
      assert (" - " + d)[3..] == d;
      assert name + " (" + t + ")" + " - " + d == name + " (" + t + ")" + (" - " + d);
    case None =>
      ParseHead(name, t, "");
      assert name + " (" + t + ")" + "" == name + " (" + t + ")";
  }

  /** The parts of the summary, one per property, in the schema's order. */
  function Parts(props: seq<(string, Option<ParamSpec>)>): (parts: seq<string>)
    ensures |parts| == |props|
    ensures forall i :: 0 <= i < |props| ==> parts[i] == DescribeParameter(props[i].0, props[i].1)
  {
    seq(|props|, i requires 0 <= i < |props| => DescribeParameter(props[i].0, props[i].1))
  }

  /** No name, type or description of the schema contains a semicolon. */
  predicate SemicolonFree(props: seq<(string, Option<ParamSpec>)>) {
    forall i :: 0 <= i < |props| ==>
      && ';' !in props[i].0
      && ';' !in TypeLabel(props[i].1)
      && (DescriptionOf(props[i].1).Some? ==> ';' !in DescriptionOf(props[i].1).value)
  }

  /** `summarise_parameters(schema)`: "No arguments required" without
      properties; otherwise one part per property, in order, joined by "; ",
      so that splitting at "; " recovers exactly the parts. */
  function SummariseParameters(schema: Option<Schema>): (summary: string)
    ensures Properties(schema) == [] ==> summary == NoArguments
    ensures forall i :: 0 <= i < |Properties(schema)| ==>
              IsInfix(DescribeParameter(Properties(schema)[i].0, Properties(schema)[i].1), summary)
    ensures Properties(schema) != [] && SemicolonFree(Properties(schema)) ==>
              var parts := Split(summary, "; ");
              && |parts| == |Properties(schema)|
              && forall i :: 0 <= i < |parts| ==>
                   parts[i] == DescribeParameter(Properties(schema)[i].0, Properties(schema)[i].1)
  {
    var props := Properties(schema);
    if props == [] then NoArguments
    else
      var parts := Parts(props);
      forall i | 0 <= i < |parts| ensures IsInfix(parts[i], Join(parts, "; ")) {
        JoinContainsEach(parts, "; ", i);
      }
      if SemicolonFree(props) then
        forall i | 0 <= i < |parts| ensures ';' !in parts[i] {
          SemicolonFreePart(props[i].0, props[i].1);
        }
        SplitJoin(parts, "; ");
        Join(parts, "; ")
      else Join(parts, "; ")
  }

  lemma SemicolonFreePart(name: string, spec: Option<ParamSpec>)
    requires ';' !in name && ';' !in TypeLabel(spec)
    requires DescriptionOf(spec).Some? ==> ';' !in DescriptionOf(spec).value
    ensures ';' !in DescribeParameter(name, spec)
  {
  }

  /** The `args` of the example call: every property name, in order, mapped
      to the placeholder "...". */
  function ExampleArgs(props: seq<(string, Option<ParamSpec>)>): (args: seq<(string, Json)>)
    ensures |args| == |props|
    ensures forall i :: 0 <= i < |props| ==> args[i] == (props[i].0, JStr("..."))
  {
    seq(|props|, i requires 0 <= i < |props| => (props[i].0, JStr("...")))
  }

  /** Looked up as a dict, the example args hold "..." under exactly the
      property names. */
  lemma ExampleArgsLookup(props: seq<(string, Option<ParamSpec>)>, key: string)
    ensures Get(ExampleArgs(props), key) == Some(JStr("...")) <==> exists i :: 0 <= i < |props| && props[i].0 == key
    ensures Get(ExampleArgs(props), key).None? <==> forall i :: 0 <= i < |props| ==> props[i].0 != key
  {
    var args := ExampleArgs(props);
    if exists i :: 0 <= i < |props| && props[i].0 == key {
      var i :| 0 <= i < |props| && props[i].0 == key;
      assert args[i].0 == key;
    }
  }

  /** The example call the system prompt shows: `{"tool": name, "args": ...}`.
      Read as a dict, its `tool` is the tool's name and its `args` are the
      example args. */
  function ExampleCall(tool: ToolInfo): (call: Json)
    ensures call.JObj?
    ensures |call.fields| == 2 && call.fields[0].0 == "tool" && call.fields[1].0 == "args"
    ensures Get(call.fields, "tool") == Some(JStr(tool.name))
    ensures Get(call.fields, "args") == Some(JObj(ExampleArgs(Properties(tool.parameters))))
  {
    var fields := [("tool", JStr(tool.name)), ("args", JObj(ExampleArgs(Properties(tool.parameters))))];
    KeysDiffer();
    assert Get(fields[..1], "tool") == Some(JStr(tool.name));
    JObj(fields)
  }

  const Preamble: string := "You are an AI assistant that can use tools to enhance your responses."
  const Usage: string := "Use this tool when it will make the user's message more playful or expressive."
  const JsonOnly: string :=
    "IMPORTANT: Respond ONLY with a JSON object in the exact format above.\nDo not write explanations or any other text. Just JSON."

  /** The `i`-th of the ten lines of the system prompt, given the tool's
      heading, the dumped example call and the two summaries. */
  function PromptLine(heading: string, example: string, tags: string, args: string, i: nat): string {
    match i
    case 0 => Preamble
    case 2 => heading
    case 3 => "Tool format: " + example
    case 4 => "Tool tags: " + tags
    case 5 => "Arguments: " + args
    case 7 => Usage
    case 9 => JsonOnly
    case _ => ""
  }

  function PromptLayout(heading: string, example: string, tags: string, args: string): string {
    Join(seq(10, i requires 0 <= i < 10 => PromptLine(heading, example, tags, args, i)), "\n")
  }

  /** Each line of the layout appears in it. */
  lemma LayoutHasLine(heading: string, example: string, tags: string, args: string, i: nat)
    requires i < 10
    ensures IsInfix(PromptLine(heading, example, tags, args, i), PromptLayout(heading, example, tags, args))
  {
    JoinContainsEach(seq(10, i requires 0 <= i < 10 => PromptLine(heading, example, tags, args, i)), "\n", i);
  }

  /** The lines the prompt carries, whatever the values filled in. */
  lemma LayoutHasLines(heading: string, example: string, tags: string, args: string)
    ensures var prompt := PromptLayout(heading, example, tags, args);
            && IsInfix(heading, prompt)
            && IsInfix("Tool format: " + example, prompt)
            && IsInfix("Tool tags: " + tags, prompt)
            && IsInfix("Arguments: " + args, prompt)
            && IsInfix(JsonOnly, prompt)
  {
    LayoutHasLine(heading, example, tags, args, 2);
    LayoutHasLine(heading, example, tags, args, 3);
    LayoutHasLine(heading, example, tags, args, 4);
    LayoutHasLine(heading, example, tags, args, 5);
    LayoutHasLine(heading, example, tags, args, 9);
  }

  /** `build_system_prompt(tool)`, after `textwrap.dedent(...).strip()`.
      `dumps` is `json.dumps(..., ensure_ascii=False)`. The prompt names the
      tool and its description, shows the example call, the tag and argument
      summaries, and demands a bare JSON reply. */
  function BuildSystemPrompt(tool: ToolInfo, dumps: Json -> string): (prompt: string)
    ensures IsInfix("Available tool: " + tool.name + " - " + tool.description, prompt)
    ensures IsInfix("Tool format: " + dumps(ExampleCall(tool)), prompt)
    ensures IsInfix("Tool tags: " + SummariseTags(tool), prompt)
    ensures IsInfix("Arguments: " + SummariseParameters(tool.parameters), prompt)
    ensures IsInfix(JsonOnly, prompt)
  {
    var heading := "Available tool: " + tool.name + " - " + tool.description;
    var example := dumps(ExampleCall(tool));
    var tags := SummariseTags(tool);
    var args := SummariseParameters(tool.parameters);
    LayoutHasLines(heading, example, tags, args);
    PromptLayout(heading, example, tags, args)
  }

  /** The user's request: a short poem on `theme`, shown with the tool. */
  function PoemRequest(theme: string, toolName: string): (request: string)
    ensures IsInfix(theme, request) && IsInfix(toolName, request)
  {
    InfixOfTwoHoles(PoemAsk, theme, PoemShow, toolName, ".");
    PoemAsk + theme + PoemShow + toolName + "."
  }

  const PoemAsk: string := "Write exactly one short poem about "
  const PoemShow: string := ", add an appropriate emoji at the beginning, and display it using "

  /** `build_initial_messages(theme, tool)`: the system prompt, then the
      user's request, which mentions both the theme and the tool. */
  function BuildInitialMessages(theme: string, tool: ToolInfo, dumps: Json -> string): (ms: seq<Message>)
    ensures |ms| == 2
    ensures ms[0] == Message(System, BuildSystemPrompt(tool, dumps))
    ensures ms[1].role == User && IsInfix(theme, ms[1].content) && IsInfix(tool.name, ms[1].content)
  {
    var request := PoemRequest(theme, tool.name);
    [Message(System, BuildSystemPrompt(tool, dumps)), Message(User, request)]
  }
}

=== FILE: prompts.dfy ===
/** The fixed conversation of the demo's two model turns: the system prompt
    describing `csay`, the first request, and the follow-up carrying the tool
    call and its result. */
module Prompts {
  import opened Wrappers
  import opened Text
  import opened Llm
  import opened ToolFlow
  import opened ToolFlowScenarios

  /** The line that names a tool and the shape of its arguments. */
  function AvailableLine(tool: string): (line: string)
    ensures "Available tool: " + tool <= line
  {
    "Available tool: " + tool + " with args schema {\"text\": \"<string>\"}."
  }

  /** The fixed lines of the system prompt, written in short pieces. */
  const Intro: string :=
    "You are an assistant " + "that can call exactly " + "one tool when needed."
  const ReplyRule: string :=
    "When you want to use a tool, " + "respond with ONLY " + "a JSON object " + "with keys \"tool\" and \"args\"."
  const NoCommentary: string :=
    "Do not add commentary " + "or markdown, " + "just valid JSON."

  /** The JSON text of the example call: `csay` with the text "hello". */
  function ExampleCallText(): string {
    EnvelopeText(CsayTool, "hello")
  }

  /** The closing line, which shows the example call. */
  function ExampleLine(): string {
    "Example: " + ExampleCallText()
  }

  /** The five lines of the system prompt, in order. */
  function SystemPromptLines(): seq<string> {
    [Intro, AvailableLine(CsayTool), ReplyRule, NoCommentary, ExampleLine()]
  }

  /** `build_system_prompt()`: the lines above, one per line; splitting the
      prompt at its newlines gives the five lines back, in order. */
  function BuildSystemPrompt(): (prompt: string)
    ensures Split(prompt, "\n") == SystemPromptLines()
  {
    var lines := SystemPromptLines();
    forall i | 0 <= i < |lines| ensures '\n' !in lines[i] {
      SingleLine(i);
    }
    SplitJoin(lines, "\n");
    Join(lines, "\n")
  }

  /** No line of the system prompt contains a newline. */
  lemma SingleLine(i: nat)
    requires i < 5
    ensures '\n' !in SystemPromptLines()[i]
  {
    if i == 0 {
      IntroSingleLine();
    } else if i == 1 {
      AvailableLineSingleLine();
    } else if i == 2 {
      ReplyRuleSingleLine();
    } else if i == 3 {
      NoCommentarySingleLine();
    } else {
      ExampleLineSingleLine();
    }
  }

  lemma AvailableLineSingleLine()
    ensures '\n' !in AvailableLine(CsayTool)
  {
  }

  lemma ExampleLineSingleLine()
    ensures '\n' !in ExampleLine()
  {
  }

  lemma IntroSingleLine()
    ensures '\n' !in Intro
  {
  }

  lemma ReplyRuleSingleLine()
    ensures '\n' !in ReplyRule
  {
  }

  lemma NoCommentarySingleLine()
    ensures '\n' !in NoCommentary
  {
  }

  /** Every line of the system prompt appears in it. */
  lemma SystemPromptHasLine(i: nat)
    requires i < 5
    ensures IsInfix(SystemPromptLines()[i], BuildSystemPrompt())
  {
    JoinContainsEach(SystemPromptLines(), "\n", i);
  }

  /** The system prompt names the tool the validator accepts and ends with
      an example call of it. */
  lemma SystemPromptNamesTool()
    ensures IsInfix(AvailableLine(CsayTool), BuildSystemPrompt())
    ensures IsInfix(ExampleLine(), BuildSystemPrompt())
  {
    SystemPromptHasLine(1);
    SystemPromptHasLine(4);
  }

  /** The example call the system prompt shows is one the validator accepts
      as `csay` with the text "hello", with no warning, given a decoder that
      reads that text as the envelope it spells out. */
  lemma ExampleIsAccepted(decode: Decoder)
    requires decode(ExampleCallText()) == Some((Envelope(CsayTool, "hello"), |ExampleCallText()|))
    ensures CheckShape(Envelope(CsayTool, "hello")) == Success(ToolCall(CsayTool, "hello"))
    ensures ValidateToolCall(decode, ExampleCallText()) == Validation(Success(ToolCall(CsayTool, "hello")), false)
  {
    assert !IsSpace("hello"[0]);
    EnvelopeVerdict(CsayTool, "hello");
    AcceptedVerbatim(decode, ExampleCallText(), "hello");
  }

  const FirstRequest: string := "Please say 'good evening human' using cowsay."
  const FinalInstruction: string :=
    "Now produce a helpful final answer for the user in natural language (in Japanese)."

  /** The user's turn that hands the tool's output back to the model. */
  function ToolFeedback(toolResult: string): (feedback: string)
    ensures "tool_result:\n" + toolResult <= feedback
    ensures |feedback| == |"tool_result:\n"| + |toolResult| + 2 + |FinalInstruction|
    ensures feedback[|"tool_result:\n"| + |toolResult|..] == "\n\n" + FinalInstruction
  {
    "tool_result:\n" + toolResult + "\n\n" + FinalInstruction
  }

  /** `first_turn_messages()`: the system prompt, then the user's request. */
  function FirstTurnMessages(): (ms: seq<Message>)
    ensures |ms| == 2
    ensures ms[0] == Message(System, BuildSystemPrompt())
    ensures ms[1] == Message(User, FirstRequest)
  {
    [Message(System, BuildSystemPrompt()), Message(User, FirstRequest)]
  }

  /** `final_turn_messages(tool_call_json, tool_result)`: the same system
      prompt, the model's own call echoed as the assistant's turn, and the
      tool result as the user's turn. */
  function FinalTurnMessages(toolCallJson: string, toolResult: string): (ms: seq<Message>)
    ensures |ms| == 3
    ensures ms[0] == FirstTurnMessages()[0]
    ensures ms[1] == Message(Assistant, toolCallJson)
    ensures ms[2] == Message(User, ToolFeedback(toolResult))
  {
    [ Message(System, BuildSystemPrompt()),
      Message(Assistant, toolCallJson),
      Message(User, ToolFeedback(toolResult)) ]
  }

  /** The prompt the model sees on the second turn: the system prompt, the
      model's call and the tool result, each verbatim on its tagged line. */
  lemma FinalTurnPrompt(toolCallJson: string, toolResult: string)
    ensures Render(FinalTurnMessages(toolCallJson, toolResult)) ==
            "SYSTEM: " + BuildSystemPrompt() + "\n"
            + "ASSISTANT: " + toolCallJson + "\n"
            + "USER: " + ToolFeedback(toolResult) + "\n"
            + Cue
  {
    ThreeLines(BuildSystemPrompt(), toolCallJson, ToolFeedback(toolResult));
  }

  /** `RenderThree` for any system, assistant and user contents, spelled out
      with the role tags; stated over variables so that no literal prompt text
      is unfolded when it is used. */
  lemma ThreeLines(system: string, assistant: string, user: string)
    ensures Render([Message(System, system), Message(Assistant, assistant), Message(User, user)]) ==
            "SYSTEM: " + system + "\n" + "ASSISTANT: " + assistant + "\n" + "USER: " + user + "\n" + Cue
  {
    RenderThree(Message(System, system), Message(Assistant, assistant), Message(User, user));
  }

  /** The prompt the model sees on the first turn. */
  lemma FirstTurnPrompt()
    ensures Render(FirstTurnMessages()) ==
            "SYSTEM: " + BuildSystemPrompt() + "\n" + "USER: " + FirstRequest + "\n" + Cue
  {
    TwoLines(BuildSystemPrompt(), FirstRequest);
  }

  /** `RenderTwo` for any system and user contents, spelled out with the role
      tags, for the same reason as `ThreeLines`. */
  lemma TwoLines(system: string, user: string)
    ensures Render([Message(System, system), Message(User, user)]) ==
            "SYSTEM: " + system + "\n" + "USER: " + user + "\n" + Cue
  {
    RenderTwo(Message(System, system), Message(User, user));
  }
}

=== FILE: server_main.dfy ===
/** The server's entry point (`main` of the cowsay-mcp package) as a pure
    decision: with a terminal on standard input it starts the MCP server;
    otherwise it reads one tool call from standard input, runs the cowsay
    renderer on it and reports `{"result": ...}` or `{"error": ...}`. */
module ServerMain {
  import opened Wrappers
  import opened Text
  import opened JsonValue

  /** The name the server registers its tool under. */
  const ServerTool: string := "cowsay-mcp"

  /** Why a piped tool call fails; `ErrorText` is the text of the `error`
      field reported for it. */
  datatype MainError =
    | NoInputData                      // the input is blank
    | InvalidInput(message: string)    // `json.loads` raised
    | NoGetAttribute(typeName: string) // `.get` on a value that is not an object
    | UnknownTool(name: string)        // `str(tool_name)` of the unknown tool
    | ToolFailed(message: string)      // the renderer raised

  /** The fixed parts of the messages of an unknown tool and of `.get` on a
      value that is not an object. */
  const UnknownToolPrefix: string := "Unknown tool: "
  const NoGetSuffix: string := "' object has no attribute 'get'"

  function ErrorText(e: MainError): (text: string)
    ensures e == NoInputData ==> text == "No input data"
    ensures e.InvalidInput? || e.ToolFailed? ==> text == e.message
    ensures e.UnknownTool? ==> UnknownToolPrefix <= text && text[|UnknownToolPrefix|..] == e.name
    ensures e.NoGetAttribute? ==>
              && |text| == |e.typeName| + 1 + |NoGetSuffix|
              && text[0] == '\''
              && text[1..|e.typeName| + 1] == e.typeName
              && text[|e.typeName| + 1..] == NoGetSuffix
  {
    match e
    case NoInputData => "No input data"
    case InvalidInput(m) => m
    case NoGetAttribute(t) => "'" + t + NoGetSuffix
    case UnknownTool(name) => UnknownToolPrefix + name
    case ToolFailed(m) => m
  }

  /** What `main` ends in: serving, the JSON result on standard output, or
      the JSON error on standard error with exit status 1. */
  datatype Outcome = RunServer | Ok(result: string) | Err(error: MainError)

  /** The outcome, and the argument the renderer was called with (`None` when
      it was not called). */
  datatype Run = Run(outcome: Outcome, rendered: Option<Json>)

  /** The external calls `main` makes: `json.loads`, the cowsay renderer
      (which may raise) and `str()` of a decoded value that is neither a
      string nor null. */
  datatype Collaborators = Collaborators(
    loads: string -> Result<Json, string>,
    render: Json -> Result<string, string>,
    show: Json -> string)

  /** `str(tool_name)` of the value `tool_call.get("tool")` returned. */
  function ToolNameText(tool: Option<Json>, show: Json -> string): (name: string)
    ensures tool.None? || tool == Some(JNull) ==> name == "None"
    ensures tool.Some? && tool.value.JStr? ==> name == tool.value.s
    ensures tool.Some? && !tool.value.JStr? && !tool.value.JNull? ==> name == show(tool.value)
  {
    match tool
    case None => "None"
    case Some(JNull) => "None"
    case Some(JStr(s)) => s
    case Some(v) => show(v)
  }

  /** The request the server can serve: a decoded object naming the server's
      tool, whose `args` (an empty object when missing) is an object. */
  predicate Servable(call: Json) {
    && call.JObj?
    && Get(call.fields, "tool") == Some(JStr(ServerTool))
    && Get(call.fields, "args").GetOr(JObj([])).JObj?
  }

  /** The text a servable request asks to render, `""` when missing. */
  function RequestedText(call: Json): Json
    requires Servable(call)
  {
    Get(Get(call.fields, "args").GetOr(JObj([])).fields, "text").GetOr(JStr(""))
  }

  /** `main()` for a standard input that is a terminal (`isTty`) or carries
      `input`. */
  function Dispatch(isTty: bool, input: string, env: Collaborators): (run: Run)
    ensures isTty ==> run == Run(RunServer, None)
    ensures !isTty ==> !run.outcome.RunServer?
    ensures !isTty && IsBlank(input) ==> run == Run(Err(NoInputData), None)
    ensures !isTty && !IsBlank(input) && env.loads(Strip(input)).Failure? ==>
              run == Run(Err(InvalidInput(env.loads(Strip(input)).error)), None)
    ensures run.rendered.Some? <==>
              !isTty && !IsBlank(input) && env.loads(Strip(input)).Success?
              && Servable(env.loads(Strip(input)).value)
    ensures run.rendered.Some? ==> run.rendered.value == RequestedText(env.loads(Strip(input)).value)
    ensures !isTty && !IsBlank(input) && env.loads(Strip(input)).Success? ==>
              var call := env.loads(Strip(input)).value;
              && (!call.JObj? ==> run == Run(Err(NoGetAttribute(TypeName(call))), None))
              && (call.JObj? && Get(call.fields, "tool") != Some(JStr(ServerTool)) ==>
                    run == Run(Err(UnknownTool(ToolNameText(Get(call.fields, "tool"), env.show))), None))
              && (call.JObj? && Get(call.fields, "tool") == Some(JStr(ServerTool))
                  && !Get(call.fields, "args").GetOr(JObj([])).JObj? ==>
                    run == Run(Err(NoGetAttribute(TypeName(Get(call.fields, "args").GetOr(JObj([]))))), None))
    ensures run.outcome.Ok? ==> run.rendered.Some? && env.render(run.rendered.value) == Success(run.outcome.result)
    ensures run.rendered.Some? && env.render(run.rendered.value).Success? ==>
              run.outcome == Ok(env.render(run.rendered.value).value)
    ensures run.rendered.Some? && env.render(run.rendered.value).Failure? ==>
              run.outcome == Err(ToolFailed(env.render(run.rendered.value).error))
    ensures run.outcome.Err? && run.outcome.error.UnknownTool? ==>
              run.rendered.None? && env.loads(Strip(input)).Success?
              && env.loads(Strip(input)).value.JObj?
              && Get(env.loads(Strip(input)).value.fields, "tool") != Some(JStr(ServerTool))
  {
    if isTty then Run(RunServer, None)
    else
      var data := Strip(input);
      StripEmptyIffBlank(input);
      if data == [] then Run(Err(NoInputData), None)
      else
        match env.loads(data)
        case Failure(message) => Run(Err(InvalidInput(message)), None)
        case Success(call) =>
          if !call.JObj? then Run(Err(NoGetAttribute(TypeName(call))), None)
          else
            var tool := Get(call.fields, "tool");
            var args := Get(call.fields, "args").GetOr(JObj([]));
            if tool == Some(JStr(ServerTool)) then
              if !args.JObj? then Run(Err(NoGetAttribute(TypeName(args))), None)
              else
                var text := Get(args.fields, "text").GetOr(JStr(""));
                match env.render(text)
                case Success(result) => Run(Ok(result), Some(text))
                case Failure(message) => Run(Err(ToolFailed(message)), Some(text))
            else Run(Err(UnknownTool(ToolNameText(tool, env.show))), None)
  }

  /** The message of an unknown tool gives back the tool's name: two
      different names are never reported alike. */
  lemma UnknownToolNamesDiffer(a: string, b: string)
    requires a != b
    ensures ErrorText(UnknownTool(a)) != ErrorText(UnknownTool(b))
  {
    var ta, tb := ErrorText(UnknownTool(a)), ErrorText(UnknownTool(b));
    assert ta[|UnknownToolPrefix|..] == a && tb[|UnknownToolPrefix|..] == b;
  }

  /** A terminal on standard input starts the server whatever the input. */
  lemma TtyIgnoresInput(input1: string, input2: string, env1: Collaborators, env2: Collaborators)
    ensures Dispatch(true, input1, env1) == Dispatch(true, input2, env2) == Run(RunServer, None)
  {
  }

  /** A piped request for another tool, named by a string, is refused with
      "Unknown tool: <name>" and nothing is rendered. */
  lemma OtherToolRefused(input: string, env: Collaborators, name: string, fields: seq<(string, Json)>)
    requires name != ServerTool
    requires !IsBlank(input) && env.loads(Strip(input)) == Success(JObj(fields))
    requires Get(fields, "tool") == Some(JStr(name))
    ensures Dispatch(false, input, env) == Run(Err(UnknownTool(name)), None)
    ensures ErrorText(Dispatch(false, input, env).outcome.error) == "Unknown tool: " + name
  {
    StripEmptyIffBlank(input);
    assert Strip(input) != [];
    assert Some(JStr(name)) != Some(JStr(ServerTool));
    assert ToolNameText(Some(JStr(name)), env.show) == name;
  }

  /** A piped object without a `tool` member is refused with
      "Unknown tool: None", and nothing is rendered. */
  lemma MissingToolRefused(input: string, env: Collaborators, fields: seq<(string, Json)>)
    requires !IsBlank(input) && env.loads(Strip(input)) == Success(JObj(fields))
    requires Get(fields, "tool").None?
    ensures Dispatch(false, input, env).rendered.None?
    ensures ErrorText(Dispatch(false, input, env).outcome.error) == "Unknown tool: None"
  {
    StripEmptyIffBlank(input);
  }

  /** `{"tool": "cowsay-mcp"}` without `args` renders the empty text. */
  lemma MissingArgsRendersEmpty(input: string, env: Collaborators)
    requires !IsBlank(input) && env.loads(Strip(input)) == Success(JObj([("tool", JStr(ServerTool))]))
    ensures Dispatch(false, input, env).rendered == Some(JStr(""))
  {
    assert Get([("tool", JStr(ServerTool))], "args") == None by {
      KeysDiffer();
    }
  }

  /** `{"tool": "cowsay-mcp", "args": {"text": t}}` renders `t`, and the
      outcome is the renderer's result or its failure. */
  lemma ServerCallRenders(input: string, env: Collaborators, t: string)
    requires !IsBlank(input)
    requires env.loads(Strip(input)) ==
               Success(JObj([("tool", JStr(ServerTool)), ("args", JObj([("text", JStr(t))]))]))
    ensures Dispatch(false, input, env).rendered == Some(JStr(t))
    ensures env.render(JStr(t)).Success? ==> Dispatch(false, input, env).outcome == Ok(env.render(JStr(t)).value)
    ensures env.render(JStr(t)).Failure? ==> Dispatch(false, input, env).outcome == Err(ToolFailed(env.render(JStr(t)).error))
  {
    var fields := [("tool", JStr(ServerTool)), ("args", JObj([("text", JStr(t))]))];
    KeysDiffer();
    assert Get(fields[..1], "tool") == Some(JStr(ServerTool));
    assert Get(fields, "tool") == Some(JStr(ServerTool));
    assert Get(fields, "args") == Some(JObj([("text", JStr(t))]));
    assert Get([("text", JStr(t))], "text") == Some(JStr(t));
  }
}

=== FILE: string_order.dfy ===
/** Python's ordering of `str` values (code point by code point, a proper
    prefix first) and `sorted` over a list of strings. */
module StringOrder {

  /** `a <= b` on Python strings. */
  predicate Le(a: string, b: string)
    decreases |a|
  {
    |a| == 0 || (|b| > 0 && (a[0] < b[0] || (a[0] == b[0] && Le(a[1..], b[1..]))))
  }

  lemma {:induction false} LeReflexive(a: string)
    ensures Le(a, a)
    decreases |a|
  {
    if |a| > 0 {
      LeReflexive(a[1..]);
    }
  }

  lemma {:induction false} LeTotal(a: string, b: string)
    ensures Le(a, b) || Le(b, a)
    decreases |a|
  {
    if |a| > 0 && |b| > 0 && a[0] == b[0] {
      LeTotal(a[1..], b[1..]);
    }
  }

  lemma {:induction false} LeAntisymmetric(a: string, b: string)
    requires Le(a, b) && Le(b, a)
    ensures a == b
    decreases |a|
  {
    if |a| > 0 {
      LeAntisymmetric(a[1..], b[1..]);
      assert a == [a[0]] + a[1..] && b == [b[0]] + b[1..];
    }
  }

  lemma {:induction false} LeTransitive(a: string, b: string, c: string)
    requires Le(a, b) && Le(b, c)
    ensures Le(a, c)
    decreases |a|
  {
    if |a| > 0 && a[0] == b[0] && b[0] == c[0] {
      LeTransitive(a[1..], b[1..], c[1..]);
    }
  }

  /** Ascending order, as `sorted` leaves it. */
  predicate Sorted(s: seq<string>) {
    forall i, j :: 0 <= i < j < |s| ==> Le(s[i], s[j])
  }

  /** Places `x` in front of the first element it does not exceed. */
  function Insert(x: string, s: seq<string>): (r: seq<string>)
    requires Sorted(s)
    ensures Sorted(r)
    ensures multiset(r) == multiset(s) + multiset{x}
    decreases |s|
  {
    if |s| == 0 then [x]
    else if Le(x, s[0]) then
      LeBelowSorted(x, s);
      [x] + s
    else
      LeTotal(x, s[0]);
      var tail := Insert(x, s[1..]);
      assert s == [s[0]] + s[1..];
      HeadBelow(s[0], x, s[1..], tail);
      [s[0]] + tail
  }

  /** A value no larger than the head of a sorted list is below all of it. */
  lemma LeBelowSorted(x: string, s: seq<string>)
    requires Sorted(s) && |s| > 0 && Le(x, s[0])
    ensures Sorted([x] + s)
  {
    forall j | 0 < j < |s| ensures Le(x, s[j]) {
      LeTransitive(x, s[0], s[j]);
    }
  }

  /** Prepending `h` keeps `tail` sorted when `h` is below `x` and all of `rest`,
      and `tail` holds exactly `rest` and `x`. */
  lemma HeadBelow(h: string, x: string, rest: seq<string>, tail: seq<string>)
    requires Sorted([h] + rest) && Le(h, x) && Sorted(tail)
    requires multiset(tail) == multiset(rest) + multiset{x}
    ensures Sorted([h] + tail)
  {
    forall j | 0 <= j < |tail| ensures Le(h, tail[j]) {
      assert tail[j] in multiset(tail);
      if tail[j] != x {
        assert tail[j] in multiset(rest);
        var k :| 0 <= k < |rest| && rest[k] == tail[j];
        assert ([h] + rest)[0] == h && ([h] + rest)[k + 1] == rest[k];
      }
    }
  }

  /** Python's `sorted(xs)`: an ascending permutation of `xs`. */
  function Sort(xs: seq<string>): (r: seq<string>)
    ensures Sorted(r)
    ensures multiset(r) == multiset(xs)
    decreases |xs|
  {
    if |xs| == 0 then []
    else
      assert xs == [xs[0]] + xs[1..];
      Insert(xs[0], Sort(xs[1..]))
  }

  /** The head of a sorted list is below each of its elements. */
  lemma HeadIsLeast(s: seq<string>, x: string)
    requires Sorted(s) && x in multiset(s)
    ensures Le(s[0], x)
  {
    var k :| 0 <= k < |s| && s[k] == x;
    if k == 0 {
      LeReflexive(x);
    }
  }

  /** Removing equal heads from two lists with the same elements leaves
      tails with the same elements. */
  lemma TailsAgree(a: seq<string>, b: seq<string>)
    requires |a| > 0 && |b| > 0 && a[0] == b[0] && multiset(a) == multiset(b)
    ensures multiset(a[1..]) == multiset(b[1..])
  {
    assert a == [a[0]] + a[1..] && b == [b[0]] + b[1..];
    assert multiset(a[1..]) == multiset(a) - multiset{a[0]};
    assert multiset(b[1..]) == multiset(b) - multiset{b[0]};
  }

  /** The tail of an ascending list is ascending. */
  lemma SortedTail(s: seq<string>)
    requires |s| > 0 && Sorted(s)
    ensures Sorted(s[1..])
  {
    forall i, j | 0 <= i < j < |s| - 1 ensures Le(s[1..][i], s[1..][j]) {
      assert s[1..][i] == s[i + 1] && s[1..][j] == s[j + 1];
    }
  }

  /** There is only one ascending arrangement of a multiset of strings, so
      `Sort` is fully determined by its contract. */
  lemma {:induction false} SortedUnique(a: seq<string>, b: seq<string>)
    requires Sorted(a) && Sorted(b) && multiset(a) == multiset(b)
    ensures a == b
    decreases |a|
  {
    assert |a| == |multiset(a)| == |multiset(b)| == |b|;
    if |a| > 0 {
      HeadIsLeast(b, a[0]);
      HeadIsLeast(a, b[0]);
      LeAntisymmetric(a[0], b[0]);
      TailsAgree(a, b);
      SortedTail(a);
      SortedTail(b);
      SortedUnique(a[1..], b[1..]);
      assert a == [a[0]] + a[1..] && b == [b[0]] + b[1..];
    }
  }

  /** Sorting forgets the original order: permuted inputs sort alike. */
  lemma SortIgnoresOrder(xs: seq<string>, ys: seq<string>)
    requires multiset(xs) == multiset(ys)
    ensures Sort(xs) == Sort(ys)
  {
    SortedUnique(Sort(xs), Sort(ys));
  }
}

=== FILE: text.dfy ===
/** The string operations of Python's `str` that the demo and the server rely
    on: whitespace classification and stripping, `join`, `split`, `upper` on
    ASCII letters, and substring containment (`in`). Strings are `seq<char>`
    and a `char` is a Unicode scalar value; unlike a Python 3 string, a
    string here cannot hold a lone surrogate. */
module Text {

  /** Python's `str.isspace()` for one character: the characters of
      bidirectional class WS, B or S, or of category Zs. */
  predicate IsSpace(c: char) {
    || c == ' '
    || ('\t' <= c <= '\r')
    || ('\U{1C}' <= c <= '\U{1F}')
    || c == '\U{85}'
    || c == '\U{A0}'
    || c == '\U{1680}'
    || ('\U{2000}' <= c <= '\U{200A}')
    || c == '\U{2028}'
    || c == '\U{2029}'
    || c == '\U{202F}'
    || c == '\U{205F}'
    || c == '\U{3000}'
  }

  /** Every character of `s` is whitespace (vacuously true of ""). */
  predicate IsBlank(s: string) {
    forall i :: 0 <= i < |s| ==> IsSpace(s[i])
  }

  /** `s.lstrip()`: the longest suffix of `s` that does not start with whitespace. */
  function LStrip(s: string): (t: string)
    ensures |t| <= |s| && t == s[|s| - |t|..]
    ensures IsBlank(s[..|s| - |t|])
    ensures |t| > 0 ==> !IsSpace(t[0])
  {
    if |s| > 0 && IsSpace(s[0]) then LStrip(s[1..]) else s
  }

  /** `s.rstrip()`: the longest prefix of `s` that does not end with whitespace. */
  function RStrip(s: string): (t: string)
    ensures |t| <= |s| && t == s[..|t|]
    ensures IsBlank(s[|t|..])
    ensures |t| > 0 ==> !IsSpace(t[|t| - 1])
  {
    if |s| > 0 && IsSpace(s[|s| - 1]) then RStrip(s[..|s| - 1]) else s
  }

  /** `s.strip()`: whitespace removed from both ends. */
  function Strip(s: string): string {
    RStrip(LStrip(s))
  }

  /** Python's truth test `not s.strip()` holds exactly of blank strings. */
  lemma StripEmptyIffBlank(s: string)
    ensures Strip(s) == [] <==> IsBlank(s)
  {
    var l := LStrip(s);
    if |l| > 0 {
      assert l[0] == s[|s| - |l|] && !IsSpace(l[0]);
    } else {
      assert s[..|s|] == s;
    }
  }

  /** `sep.join(xs)`: the first piece starts the result and, when more
      follow, the separator comes right after it. */
  function Join(xs: seq<string>, sep: string): (joined: string)
    ensures |xs| > 0 ==> xs[0] <= joined
    ensures |xs| > 1 ==> xs[0] + sep <= joined
    decreases |xs|
  {
    if |xs| == 0 then ""
    else if |xs| == 1 then xs[0]
    else xs[0] + sep + Join(xs[1..], sep)
  }

  /** `s.split(sep)` for a non-empty separator: the pieces between the
      non-overlapping occurrences of `sep`, scanning left to right. */
  function Split(s: string, sep: string): (parts: seq<string>)
    requires |sep| > 0
    ensures |parts| > 0
    decreases |s|
  {
    if |s| < |sep| then [s]
    else if s[..|sep|] == sep then [""] + Split(s[|sep|..], sep)
    else
      var rest := Split(s[1..], sep);
      [[s[0]] + rest[0]] + rest[1..]
  }

  /** A piece without the separator's first character is not split. */
  lemma {:induction false} SplitWithoutSeparator(x: string, sep: string)
    requires |sep| > 0 && sep[0] !in x
    ensures Split(x, sep) == [x]
    decreases |x|
  {
    if |x| >= |sep| {
      assert x[..|sep|][0] == x[0] != sep[0];
      SplitWithoutSeparator(x[1..], sep);
      assert [x[0]] + x[1..] == x;
    }
  }

  /** The first piece ends at the first separator. */
  lemma {:induction false} SplitAfterPiece(x: string, sep: string, rest: string)
    requires |sep| > 0 && sep[0] !in x
    ensures Split(x + sep + rest, sep) == [x] + Split(rest, sep)
    decreases |x|
  {
    var s := x + sep + rest;
    if |x| == 0 {
      assert s == sep + rest;
      assert s[..|sep|] == sep;
      assert s[|sep|..] == rest;
    } else {
      assert s[..|sep|][0] == x[0] != sep[0];
      assert s[1..] == x[1..] + sep + rest;
      SplitAfterPiece(x[1..], sep, rest);
      assert [x[0]] + x[1..] == x;
    }
  }

  /** `split` inverts `join` when no piece contains the separator's first
      character: the pieces come back in order and in number. */
  lemma {:induction false} SplitJoin(xs: seq<string>, sep: string)
    requires |sep| > 0 && |xs| > 0
    requires forall i :: 0 <= i < |xs| ==> sep[0] !in xs[i]
    ensures Split(Join(xs, sep), sep) == xs
    decreases |xs|
  {
    if |xs| == 1 {
      SplitWithoutSeparator(xs[0], sep);
    } else {
      SplitJoin(xs[1..], sep);
      SplitAfterPiece(xs[0], sep, Join(xs[1..], sep));
      assert xs == [xs[0]] + xs[1..];
    }
  }

  /** Python's `sub in s`: `sub` starts at some position of `s`. */
  predicate IsInfix(sub: string, s: string) {
    exists i :: 0 <= i <= |s| && sub <= s[i..]
  }

  /** A string occurs in any text that embeds it. */
  lemma InfixOfConcat(a: string, sub: string, b: string)
    ensures IsInfix(sub, a + sub + b)
  {
    assert sub <= (a + sub + b)[|a|..];
  }

  /** Both holes of `a + x + b + y + c` are infixes of it. */
  lemma InfixOfTwoHoles(a: string, x: string, b: string, y: string, c: string)
    ensures IsInfix(x, a + x + b + y + c) && IsInfix(y, a + x + b + y + c)
  {
    var s := a + x + b + y + c;
    assert x <= s[|a|..];
    assert y <= s[|a| + |x| + |b|..];
  }

  /** A string inside `b` is inside any text that ends with `b`. */
  lemma InfixOfSuffix(sub: string, a: string, b: string)
    requires IsInfix(sub, b)
    ensures IsInfix(sub, a + b)
  {
    var i :| 0 <= i <= |b| && sub <= b[i..];
    assert (a + b)[|a| + i..] == b[i..];
  }

  /** Every piece occurs in the joined text. */
  lemma {:induction false} JoinContainsEach(xs: seq<string>, sep: string, i: nat)
    requires i < |xs|
    ensures IsInfix(xs[i], Join(xs, sep))
    decreases |xs|
  {
    if |xs| == 1 {
      InfixOfConcat("", xs[0], "");
      assert "" + xs[0] + "" == xs[0];
    } else if i == 0 {
      InfixOfConcat("", xs[0], sep + Join(xs[1..], sep));
      assert "" + xs[0] + (sep + Join(xs[1..], sep)) == Join(xs, sep);
    } else {
      JoinContainsEach(xs[1..], sep, i - 1);
      InfixOfSuffix(xs[i], xs[0] + sep, Join(xs[1..], sep));
    }
  }

  /** The total length of some pieces. */
  function TotalLength(xs: seq<string>): nat
    decreases |xs|
  {
    if |xs| == 0 then 0 else |xs[0]| + TotalLength(xs[1..])
  }

  /** Joining `n` pieces adds `n - 1` separators to their total length. */
  lemma {:induction false} JoinLength(xs: seq<string>, sep: string)
    requires |xs| > 0
    ensures |Join(xs, sep)| == TotalLength(xs) + (|xs| - 1) * |sep|
    decreases |xs|
  {
    if |xs| > 1 {
      JoinLength(xs[1..], sep);
      assert (|xs| - 1) * |sep| == (|xs| - 2) * |sep| + |sep|;
    }
  }

  /** `c.upper()` for one character, restricted to ASCII letters. */
  function UpperChar(c: char): (u: char)
    ensures 'a' <= c <= 'z' ==> 'A' <= u <= 'Z' && u as int - c as int == 'A' as int - 'a' as int
    ensures !('a' <= c <= 'z') ==> u == c
  {
    if 'a' <= c <= 'z' then (c as int - 'a' as int + 'A' as int) as char else c
  }

  /** `s.upper()` for ASCII text: every lower-case letter is capitalised,
      everything else is kept, and the length does not change. */
  function Upper(s: string): string {
    if |s| == 0 then "" else [UpperChar(s[0])] + Upper(s[1..])
  }

  /** `upper` keeps the length and maps each character on its own. */
  lemma {:induction false} UpperEach(s: string)
    ensures |Upper(s)| == |s|
    ensures forall i :: 0 <= i < |s| ==> Upper(s)[i] == UpperChar(s[i])
    decreases |s|
  {
    if |s| > 0 {
      UpperEach(s[1..]);
    }
  }
}

=== FILE: tool_flow.dfy ===
/** The tool-call validator of the demo (`validate_tool_call`): it decodes one
    JSON value from the model's reply after leading whitespace, warns about
    trailing text, and then checks the value's shape in a fixed order. Each
    `sys.exit(1)` of the source is a `ValidationError` here and the warning on
    standard error is the `trailingWarning` flag. */
module ToolFlow {
  import opened Wrappers
  import opened Text
  import opened JsonValue

  /** The only tool the demo accepts (`ToolName = Literal["csay"]`). */
  const CsayTool: string := "csay"

  /** `json.JSONDecoder().raw_decode`: decodes one value from a prefix of the
      text and reports where it ended, or fails with `JSONDecodeError`
      (`None`). Which texts it accepts is left open; the end it reports never
      lies past the text. */
  type Decoder = d: string -> Option<(Json, nat)>
    | forall s :: d(s).Some? ==> d(s).value.1 <= |s|
    witness (s: string) => None

  /** The validated invocation: the tool name and the `text` argument. */
  datatype ToolCall = ToolCall(tool: string, text: string)

  /** The exits of the validator, each carrying what it would print
      (`None` is a key the object does not have). */
  datatype ValidationError =
    | InvalidJson
    | NotAnObject(candidate: Json)
    | UnsupportedTool(tool: Option<Json>)
    | ArgsNotAnObject(args: Option<Json>)
    | TextNotUsable(text: Option<Json>)

  /** What the validator returns together with whether it warned about text
      after the JSON value. */
  datatype Validation = Validation(result: Result<ToolCall, ValidationError>, trailingWarning: bool)

  /** How many leading whitespace characters `lstrip` removes. */
  function LeadingOffset(raw: string): (offset: nat)
    ensures offset + |LStrip(raw)| == |raw|
    ensures raw[offset..] == LStrip(raw)
    ensures IsBlank(raw[..offset])
  {
    |raw| - |LStrip(raw)|
  }

  /** The four conditions the validator checks, one per exit. */
  predicate NamesCsay(fields: seq<(string, Json)>) {
    Get(fields, "tool") == Some(JStr(CsayTool))
  }

  predicate HasArgsObject(fields: seq<(string, Json)>) {
    Get(fields, "args").Some? && Get(fields, "args").value.JObj?
  }

  predicate UsableText(text: Option<Json>) {
    text.Some? && text.value.JStr? && !IsBlank(text.value.s)
  }

  /** The shape checks, in the order the source runs them; the first one
      that fails decides the error. */
  function CheckShape(candidate: Json): (r: Result<ToolCall, ValidationError>)
    ensures !candidate.JObj? <==> r == Failure(NotAnObject(candidate))
    ensures r.Failure? && r.error.UnsupportedTool?
            <==> candidate.JObj? && !NamesCsay(candidate.fields)
    ensures r.Failure? && r.error.UnsupportedTool? ==> r.error.tool == Get(candidate.fields, "tool")
    ensures r.Failure? && r.error.ArgsNotAnObject?
            <==> candidate.JObj? && NamesCsay(candidate.fields) && !HasArgsObject(candidate.fields)
    ensures r.Failure? && r.error.ArgsNotAnObject? ==> r.error.args == Get(candidate.fields, "args")
    ensures r.Failure? && r.error.TextNotUsable?
            <==> candidate.JObj? && NamesCsay(candidate.fields) && HasArgsObject(candidate.fields)
                 && !UsableText(Get(Get(candidate.fields, "args").value.fields, "text"))
    ensures r.Failure? && r.error.TextNotUsable? ==> r.error.text == Get(Get(candidate.fields, "args").value.fields, "text")
    ensures r.Success? <==> candidate.JObj? && NamesCsay(candidate.fields) && HasArgsObject(candidate.fields)
                            && UsableText(Get(Get(candidate.fields, "args").value.fields, "text"))
    ensures r.Success? ==> r.value.tool == CsayTool
                           && Get(Get(candidate.fields, "args").value.fields, "text") == Some(JStr(r.value.text))
                           && !IsBlank(r.value.text)
  {
    match candidate
    case JObj(fields) =>
      var tool := Get(fields, "tool");
      if tool != Some(JStr(CsayTool)) then Failure(UnsupportedTool(tool))
      else
        var args := Get(fields, "args");
        if !(args.Some? && args.value.JObj?) then Failure(ArgsNotAnObject(args))
        else
          var text := Get(args.value.fields, "text");
          if !(text.Some? && text.value.JStr?) then Failure(TextNotUsable(text))
          else
            StripEmptyIffBlank(text.value.s);
            if Strip(text.value.s) == [] then Failure(TextNotUsable(text))
            else Success(ToolCall(CsayTool, text.value.s))
    case _ => Failure(NotAnObject(candidate))
  }

  /** `validate_tool_call(raw_json)`. */
  function ValidateToolCall(decode: Decoder, raw: string): (v: Validation)
    ensures decode(LStrip(raw)).None? ==> v == Validation(Failure(InvalidJson), false)
    ensures decode(LStrip(raw)).Some? ==>
              var (candidate, end) := decode(LStrip(raw)).value;
              && v.result == CheckShape(candidate)
              && (v.trailingWarning <==> !IsBlank(LStrip(raw)[end..]))
  {
    var trimmed := LStrip(raw);
    var offset := LeadingOffset(raw);
    match decode(trimmed)
    case None => Validation(Failure(InvalidJson), false)
    case Some((candidate, end)) =>
      assert raw[offset + end..] == trimmed[end..];
      StripEmptyIffBlank(raw[offset + end..]);
      var remainder := Strip(raw[offset + end..]);
      Validation(CheckShape(candidate), remainder != [])
  }

  /** The canonical envelope `{"tool": tool, "args": {"text": text}}`. */
  function Envelope(tool: string, text: string): Json {
    JObj([("tool", JStr(tool)), ("args", JObj([("text", JStr(text))]))])
  }

  /** The verdict on an envelope: the tool name is checked first, then the
      text; a non-blank text under `csay` comes back untouched, so validation
      inverts `Envelope`. */
  lemma EnvelopeVerdict(tool: string, text: string)
    ensures CheckShape(Envelope(tool, text)) ==
            if tool != CsayTool then Failure(UnsupportedTool(Some(JStr(tool))))
            else if IsBlank(text) then Failure(TextNotUsable(Some(JStr(text))))
            else Success(ToolCall(CsayTool, text))
  {
    KeysDiffer();
    var fields := Envelope(tool, text).fields;
    assert fields[..1] == [("tool", JStr(tool))];
    assert Get(fields, "tool") == Some(JStr(tool));
    assert Get(fields, "args") == Some(JObj([("text", JStr(text))]));
    assert Get([("text", JStr(text))], "text") == Some(JStr(text));
  }

  /** The envelope as `json.dumps` writes it, for a tool name and text that
      need no escaping. */
  function EnvelopeText(tool: string, text: string): (reply: string)
    ensures |reply| > 0 && reply[0] == '{'
  {
    "{\"tool\": \"" + tool + "\", \"args\": {\"text\": \"" + text + "\"}}"
  }

  /** A reply that is one JSON value and nothing else is judged on that
      value alone, with no warning. */
  lemma ValidateWholeReply(decode: Decoder, raw: string, candidate: Json)
    requires |raw| > 0 && !IsSpace(raw[0])
    requires decode(raw) == Some((candidate, |raw|))
    ensures ValidateToolCall(decode, raw) == Validation(CheckShape(candidate), false)
  {
    assert LStrip(raw) == raw;
  }

  /** A JSON value followed by other text is judged on the value alone; the
      text only decides the warning, which is raised exactly when the text is
      not blank. */
  lemma ValidateReplyWithTail(decode: Decoder, value: string, tail: string, candidate: Json)
    requires |value| > 0 && !IsSpace(value[0])
    requires decode(value + tail) == Some((candidate, |value|))
    ensures ValidateToolCall(decode, value + tail) == Validation(CheckShape(candidate), !IsBlank(tail))
  {
    var raw := value + tail;
    assert raw[0] == value[0];
    assert LStrip(raw) == raw;
    assert raw[|value|..] == tail;
  }

  /** Conversely, every accepted value carries the envelope's two fields:
      the tool name and the text it was validated with. */
  lemma AcceptedHasEnvelopeFields(candidate: Json)
    requires CheckShape(candidate).Success?
    ensures var call := CheckShape(candidate).value;
            && candidate.JObj?
            && Get(candidate.fields, "tool") == Some(JStr(call.tool))
            && Get(candidate.fields, "args").Some?
            && Get(candidate.fields, "args").value.JObj?
            && Get(Get(candidate.fields, "args").value.fields, "text") == Some(JStr(call.text))
  {
  }

  /** A tool other than `csay` is refused before `args` is looked at: any
      value of `args` gives the same error. */
  lemma WrongToolIgnoresArgs(tool: Option<Json>, args1: Json, args2: Json)
    requires tool != Some(JStr(CsayTool))
    ensures var f1 := if tool.Some? then [("tool", tool.value), ("args", args1)] else [("args", args1)];
            var f2 := if tool.Some? then [("tool", tool.value), ("args", args2)] else [("args", args2)];
            CheckShape(JObj(f1)) == CheckShape(JObj(f2)) == Failure(UnsupportedTool(tool))
  {
    KeysDiffer();
    if tool.Some? {
      var f1 := [("tool", tool.value), ("args", args1)];
      var f2 := [("tool", tool.value), ("args", args2)];
      assert f1[..1] == f2[..1] == [("tool", tool.value)];
      assert Get(f1, "tool") == Get(f2, "tool") == tool;
    } else {
      assert Get([("args", args1)], "tool") == Get([("args", args2)], "tool") == None;
    }
  }

  /** Text after the decoded value never changes the verdict: two replies
      whose decoded values agree are validated alike, whatever follows. */
  lemma TrailingTextIrrelevant(decode: Decoder, raw1: string, raw2: string)
    requires decode(LStrip(raw1)).Some? && decode(LStrip(raw2)).Some?
    requires decode(LStrip(raw1)).value.0 == decode(LStrip(raw2)).value.0
    ensures ValidateToolCall(decode, raw1).result == ValidateToolCall(decode, raw2).result
  {
  }
}

/** The validator on the kinds of reply the demo's unit tests exercise,
    stated for every text and tool name, for any decoder that reads each
    reply's JSON value as standard JSON would. */
module ToolFlowScenarios {
  import opened Wrappers
  import opened Text
  import opened JsonValue
  import opened ToolFlow

  /** A reply that is exactly the JSON text of a call of `csay` with a
      non-blank text is accepted with no warning, and the text comes back as
      written, surrounding spaces included. */
  lemma AcceptedVerbatim(decode: Decoder, reply: string, text: string)
    requires |reply| > 0 && reply[0] == '{' && !IsBlank(text)
    requires decode(reply) == Some((Envelope(CsayTool, text), |reply|))
    ensures ValidateToolCall(decode, reply) == Validation(Success(ToolCall(CsayTool, text)), false)
  {
    ValidateWholeReply(decode, reply, Envelope(CsayTool, text));
    EnvelopeVerdict(CsayTool, text);
  }

  /** Notes after the JSON text only raise the warning: the call is still
      accepted. */
  lemma TrailingTextWarns(decode: Decoder, reply: string, text: string, notes: string)
    requires |reply| > 0 && reply[0] == '{' && !IsBlank(text) && !IsBlank(notes)
    requires decode(reply + notes) == Some((Envelope(CsayTool, text), |reply|))
    ensures ValidateToolCall(decode, reply + notes) == Validation(Success(ToolCall(CsayTool, text)), true)
  {
    ValidateReplyWithTail(decode, reply, notes, Envelope(CsayTool, text));
    EnvelopeVerdict(CsayTool, text);
  }

  /** A call of a tool other than `csay` is refused, naming the tool,
      whatever the text. */
  lemma OtherToolRefused(decode: Decoder, reply: string, tool: string, text: string)
    requires tool != CsayTool
    requires |reply| > 0 && reply[0] == '{'
    requires decode(reply) == Some((Envelope(tool, text), |reply|))
    ensures ValidateToolCall(decode, reply).result == Failure(UnsupportedTool(Some(JStr(tool))))
  {
    ValidateWholeReply(decode, reply, Envelope(tool, text));
    EnvelopeVerdict(tool, text);
  }

  /** A blank text, such as three spaces, is refused with that text. */
  lemma BlankTextRefused(decode: Decoder, reply: string, text: string)
    requires IsBlank(text)
    requires |reply| > 0 && reply[0] == '{'
    requires decode(reply) == Some((Envelope(CsayTool, text), |reply|))
    ensures ValidateToolCall(decode, reply).result == Failure(TextNotUsable(Some(JStr(text))))
  {
    ValidateWholeReply(decode, reply, Envelope(CsayTool, text));
    EnvelopeVerdict(CsayTool, text);
  }
}

=== FILE: wrappers.dfy ===
/** The wrappers used throughout the model: `Option` for a value
    that may be absent (a missing dictionary key, a failed decode) and `Result`
    for an operation that either succeeds or fails with an error value. */
module Wrappers {

  datatype Option<+T> = None | Some(value: T) {

    /** The wrapped value, or `default` when absent (Python's `d.get(k, default)`). */
    function GetOr(default: T): T {
      match this
      case Some(v) => v
      case None => default
    }
  }

  datatype Result<+T, +E> = Success(value: T) | Failure(error: E)
}
